=== FILE: README.md ===
# Heirlooms: the artifact analysis pipeline, list helpers and route guard in Dafny

This project models the three pieces of sequential logic in the Heirlooms web
application (a catalogue of family artifacts with AI-written summaries):

- **The summary endpoint** (`POST /api/analyze/summary`). It reads an artifact
  and refuses one with neither a transcript nor image captions. It then marks
  the artifact `processing` and builds the prompt context. The transcript is cut
  to 10,000 characters, with a note when it was cut, and at most three captions
  are numbered. The generated description must be at least 10 characters. On
  success the row becomes `done` with the description. On failure the handler
  is meant to record `error` with the message, but as written it never makes
  that write (see Findings). The model keeps both versions of the handler:
  `AnalyzeAsWritten` is the code as it stands, and `Analyze` is the corrected
  handler.
- **The artifact server actions.** This covers previous/next navigation inside
  a collection, media-URL de-duplication and the list of removed URLs, and the
  validation, sign-in and ownership gates of create and update. It also covers
  how author names are attached to the public listing.
- **The session middleware's decision.** A request either passes through, or a
  signed-out visitor of `/collections/new` or `/artifacts/new` is sent to
  `/login?returnTo=<page>`.

The database, the auth provider, the media host and the language model are
oracles. The `artifacts` table is a `map` from id to an `Artifact` record.
Query results are input sequences. Every update has an
`Applied | AppliedToNoRow | Rejected` outcome; `AppliedToNoRow` is an update
that reports no error but whose filter matched no row it may change. The generator is a function from the context text to
`Generated(summary) | GenerationThrew(thrown)`. Strings are `seq<char>`.

Modules, one per concern:

| file | module | what it holds |
|---|---|---|
| common.dfy | `Common` | `Option`, JavaScript truthiness of optional strings |
| seqs.dfy | `Seqs` | `IndexOf` (`findIndex`), no-duplicates, subsequence, counts |
| text.dfy | `Text` | `startsWith`, `endsWith`, `join`, `split` and their round trip |
| decimal.dfy | `Decimal` | `${n}` for naturals, with a parse-back round trip |
| artifacts.dfy | `Artifacts` | the artifact record, status, table, row update, consistency invariant |
| summary_context.dfy | `SummaryContext` | eligibility and prompt-context assembly |
| summary_route.dfy | `SummaryRoute` | the endpoint as a function of body, table and oracle |
| media.dfy | `Media` | media-URL de-duplication and removed URLs |
| adjacency.dfy | `Adjacency` | `getAdjacentArtifacts` |
| artifact_actions.dfy | `ArtifactActions` | `updateArtifact`, `createArtifact`, `getAllPublicArtifacts` |
| route_guard.dfy | `RouteGuard` | `updateSession`'s decision, `URLSearchParams.set` |

Four details of the code worth stating:

- The truncation note names the original length and the limit (10000). The
  limit equals the truncated length.
- Context parts are joined with `"\n\n"`. The note and the caption section each
  begin with their own `"\n"`, so they are preceded by two blank lines.
- After a failure the row is not left in `error`. See Findings: the handler as
  written cannot reach its error write.
- The summary save (`.update(...).select()` without `.single()`) reports no
  error when it matches no row, for example when row-level security hides the
  row from writes. The route then answers with the summary while the row keeps
  its `processing` state. The artifact edit uses `.single()`, so there the same
  case is a failure.

## Model

| member | source | states |
|---|---|---|
| SummaryContext.ShownTranscript | app/api/analyze/summary/route.ts:80 | the shown transcript is a prefix of the transcript, of length min(n, 10000) |
| SummaryContext.CaptionLines | app/api/analyze/summary/route.ts:88-89 | there are min(k, 3) lines; line i is `"<i+1>. <caption i>"`, in entry order |
| SummaryContext.PartsLayout | app/api/analyze/summary/route.ts:77-91 | parts come in the order transcript, note, captions; each is present exactly when its source is present; the note is present exactly when n > 10000 |
| SummaryContext.TranscriptSectionShape | app/api/analyze/summary/route.ts:79-81 | the section is the header `"## Transcript:\n"` followed by exactly the first min(n, 10000) characters |
| SummaryContext.TruncationNoteNamesLength | app/api/analyze/summary/route.ts:82-84 | different original lengths give different notes, so the note names n |
| SummaryContext.CaptionSectionIgnoresUrls | app/api/analyze/summary/route.ts:88-90 | image URLs (the keys) play no part in the rendered section |
| SummaryContext.CaptionSectionIgnoresTail | app/api/analyze/summary/route.ts:88 | captions after the third do not change the section |
| SummaryContext.CaptionLinesRecoverable | app/api/analyze/summary/route.ts:89-90 | when no shown caption contains a newline, splitting the section body on newlines gives back exactly the numbered lines |
| SummaryContext.ContextStartsWithTranscript | app/api/analyze/summary/route.ts:79-93 | with a transcript, the context begins with the transcript section |
| SummaryContext.ContextEndsWithCaptions | app/api/analyze/summary/route.ts:87-93 | with captions, the context ends with the caption section |
| SummaryContext.ContextCases | app/api/analyze/summary/route.ts:77-93 | the full context for each combination of present sources; an absent source contributes nothing |
| Artifacts.UpdateRow | app/api/analyze/summary/route.ts:71-74 | an update by id changes only that row, and only when the row exists and the write is applied |
| SummaryRoute.Steps | app/api/analyze/summary/route.ts:25-162 | a throw happens only after a non-empty id, a successful read and the content check, and leaves the table as the `processing` write left it |
| SummaryRoute.AnalyzeAsWritten | app/api/analyze/summary/route.ts:23-190 | the handler as written: the same response as the corrected handler in every case; after a failure past the content check, the table is exactly what the `processing` write left and nothing is invalidated; in every other case it equals the corrected handler |
| SummaryRoute.AsWrittenPreservesWellFormed | app/api/analyze/summary/route.ts:69-74 | the handler as written keeps the status-consistency invariant of the table |
| SummaryRoute.Analyze | app/api/analyze/summary/route.ts:23-190 | corrected handler (the catch block keeps the id from the first read); by AnalyzeAsWritten the response clauses hold for the code as written too: malformed body gives 500 with no write; missing id gives 400, unknown artifact 404, no content 400, each with the table unchanged; success happens exactly when content, a valid description and a save that reports no error all hold; failures use only 400, 404 and 500 |
| SummaryRoute.StepsOnFailure | app/api/analyze/summary/route.ts:99-162 | past the content check a failing run throws the generator's error, the invalid-description error or the save error, over the table the `processing` write left |
| SummaryRoute.SuccessRecordsDescription | app/api/analyze/summary/route.ts:126-154 | stated of the corrected handler, which equals the handler as written on success: success answers the summary, invalidates the detail and edit paths and changes at most the requested row; when the save changes the row, it leaves the row `done` with the generated description (at least 10 characters) and no error; content fields and other rows stay the same |
| SummaryRoute.ShortDescriptionRefused | app/api/analyze/summary/route.ts:126-128 | a description shorter than 10 characters fails with "AI did not generate a valid description" and is not stored |
| SummaryRoute.SilentSaveReportsSuccess | app/api/analyze/summary/route.ts:132-154 | a save that reports no error but matches no row still answers with the summary and invalidates both paths, while the table stays as the `processing` write left it (so the row stays `processing`) |
| SummaryRoute.FailureRecordsError | app/api/analyze/summary/route.ts:163-189 | corrected handler: a failure after the content check answers 500 with the thrown message; with the error write applied, the row is `error` with that message, and nothing else changes |
| SummaryRoute.FailureWithRejectedErrorWrite | app/api/analyze/summary/route.ts:167-184 | corrected handler: when the error write changes nothing (rejected or matching no row), it is swallowed and the row stays as the `processing` write left it |
| SummaryRoute.AnalyzePreservesWellFormed | app/api/analyze/summary/route.ts:69-74 | corrected handler: every run keeps the invariant "`done` means description present and no error; `error` means message present" and changes at most the requested row |
| SummaryRoute.AnalyzeOnSuccess | app/api/analyze/summary/route.ts:130-154 | stated of the corrected handler, which equals the handler as written on success: a successful run is the summary, the row overwritten with description, `done` and no error when the save changes it (otherwise the table the `processing` write left), and the two invalidated paths |
| SummaryRoute.RerunIgnoresPriorDescription | app/api/analyze/summary/route.ts:130-140 | corrected handler: re-running does not depend on the description already stored: the same response, and after success the same table, except that a save matching no row leaves each run's own prior description |
| SummaryRoute.VersionsAgreeUntilFailure | app/api/analyze/summary/route.ts:163-189 | the handler as written and as intended give the same response, and differ only after a 500 |
| SummaryRoute.AsWrittenNeverRecordsError | app/api/analyze/summary/route.ts:166-184 | as written, no row is ever moved into `error` |
| SummaryRoute.AsWrittenFailureLeavesProcessing | app/api/analyze/summary/route.ts:69-74 | as written, a failed run on a row marked `processing` leaves it `processing` with no message |
| SummaryRoute.GeneratorTimeoutExample | app/api/analyze/summary/route.ts:163-184 | a concrete, well-formed artifact whose generator times out stays `processing` as written, and becomes `error` / "timeout" as intended |
| Decimal.NatToString | app/api/analyze/summary/route.ts:83 | the rendering is non-empty digits with no leading zero |
| Decimal.ParseNatToString | app/api/analyze/summary/route.ts:83 | reading the rendered digits back gives the number |
| Text.SplitJoin | app/api/analyze/summary/route.ts:89 | splitting undoes `join` when no part contains the separator |
| Seqs.IndexOf | lib/actions/artifacts.ts:171 | the result is -1 exactly when the value is absent, and otherwise its first position |
| Media.Dedup | lib/actions/artifacts.ts:321 | the result has the same values as the input and no repeats |
| Media.DedupFirstOccurrenceOrder | lib/actions/artifacts.ts:48 | values keep the order of their first occurrence in the input |
| Media.DedupUnique | lib/actions/artifacts.ts:321 | any list with the input's values, no repeats and first-occurrence order is the result |
| Media.DedupOfDistinct | lib/actions/artifacts.ts:321 | a list without repeats is left unchanged |
| Media.DedupIdempotent | lib/actions/artifacts.ts:321 | de-duplicating twice equals doing it once |
| Media.RemovedUrls | lib/actions/artifacts.ts:310-311 | exactly the old URLs absent from the new list, with old multiplicities, as a subsequence of the old list, disjoint from the new one |
| Adjacency.GetAdjacent | lib/actions/artifacts.ts:155-187 | failed query gives (null, null, 0, 0); an unknown id gives (null, null, 0, length); otherwise the position is the first match plus one, within [1, total], with previous present iff there is a row before it and next iff there is a row after |
| Adjacency.NextThenPrevious | lib/actions/artifacts.ts:177-186 | with distinct ids, the next artifact's previous is the current one, one position later |
| Adjacency.PositionUnique | lib/actions/artifacts.ts:171-184 | with distinct ids, the position reported is the artifact's index plus one |
| ArtifactActions.PublicIdsToDelete | lib/actions/artifacts.ts:313-318 | every extracted non-empty public id of a removed URL is deleted, and nothing else |
| ArtifactActions.UpdateArtifact | lib/actions/artifacts.ts:263-373 | invalid input returns "Invalid input" before any other check and with no effect; without a signed-in owner it returns "Unauthorized" with no deletion and no write; an owner's edit deletes the removed media even if the write then fails (a rejected write, or one that matches no row, which `.single()` turns into an error), which returns "Failed to update artifact. Please try again."; it succeeds, with no message, exactly when valid, owned and applied, storing the edit and the de-duplicated media; on success it invalidates the artifact page, `/collections` and the collection page (by slug, else by id), and nothing otherwise |
| ArtifactActions.EditWritesSentFields | lib/actions/artifacts.ts:335-342 | the title and every optional field that was sent (null included) are written; a field left out of the edit keeps its old value |
| ArtifactActions.EditKeepsOtherFields | lib/actions/artifacts.ts:335-342 | an edit leaves owner, collection, content and analysis fields as they were; the media keep the submitted values |
| ArtifactActions.UpdatePreservesWellFormed | lib/actions/artifacts.ts:335-352 | edits keep the status-consistency invariant of the table |
| ArtifactActions.CreateArtifact | lib/actions/artifacts.ts:17-95 | "Invalid input" before the sign-in check; "Unauthorized" without a user; "Failed to create artifact. Please try again." when the insert fails; no message exactly on success; on insert it redirects to the new artifact's page and adds one row under the new id, owned by the caller, holding the form's title, description, collection, year and origin, the media de-duplicated in first-occurrence order, and no transcript, captions or analysis, leaving other rows alone; it invalidates `/artifacts`, `/collections` and, when a collection was given, its page; a rejected insert changes nothing and invalidates nothing |
| ArtifactActions.CreatePreservesWellFormed | lib/actions/artifacts.ts:62-75 | creating an artifact keeps every row stored under its own id with consistent status fields |
| ArtifactActions.ProfileMap | lib/actions/artifacts.ts:218 | the map's keys are exactly the fetched profile ids |
| ArtifactActions.ProfileMapLastWins | lib/actions/artifacts.ts:218 | for each id the map holds the display name of the last row with that id |
| ArtifactActions.PublicArtifacts | lib/actions/artifacts.ts:208-223 | a failed query gives an empty list; otherwise one entry per fetched artifact in the same order, names never empty, all names null when profiles could not be read |
| ArtifactActions.AuthorNameFromLastProfile | lib/actions/artifacts.ts:215-223 | an entry has an author name exactly when the owner's profile has a non-empty display name, and then it is that name |
| RouteGuard.SetParam | lib/supabase/middleware.ts:56 | afterwards `returnTo` has exactly the one given value; the other parameters are kept in order; it is appended when absent |
| RouteGuard.UpdateSession | lib/supabase/middleware.ts:4-65 | a missing URL or key, or an unparseable URL, passes through with no session lookup; otherwise the lookup happens; `/auth/callback...` paths always pass through |
| RouteGuard.ProtectedIsNotCallback | lib/supabase/middleware.ts:46-51 | the two protected paths are not callback paths |
| RouteGuard.RedirectExactly | lib/supabase/middleware.ts:50-58 | a redirect happens exactly when config is usable, there is no user and the path is one of the two protected ones; the target is `/login` with `returnTo` equal to the original path and the rest of the query kept |
| RouteGuard.PassThroughCases | lib/supabase/middleware.ts:53-64 | signed-in users, unprotected paths and lookups that throw pass through |

## Left out

- The language-model call itself is an oracle: prompts, model choice, `maxTokens` and the optional schema fields' meaning. The schema's own 10-character minimum is enforced inside the generator call. A rejection there reaches the model as `GenerationThrew`, and the route's explicit check (the same bound) is modelled.
- The validation schemas of `lib/schemas` are not part of this model. `UpdateArtifact` and `CreateArtifact` take them as opaque predicates `valid`.
- Database queries and their filters (`is_public`, `excludeUserId`, ordering by `created_at`) are not modelled. Their results are given as input sequences in query order. A failed read of a row is a `readFails`/`fetchFails` flag.
- `getArtifactsByCollection`, `getMyArtifacts` and `getArtifactById` are plain queries with no decision logic, so they are not modelled.
- The media host is not modelled. `extractPublicIdFromUrl` is an oracle function, and deletions are recorded as the list of public ids.
- `revalidatePath` is recorded as a list of paths, and `redirect` as the `RedirectTo` result. Timestamps (`updated_at`) and console logging are not modelled, including the branches that only log duplicate media URLs.
- Concurrency is not modelled. Two runs on the same artifact race, and the last writer wins. The model is one request at a time.
- `createClient()` throwing is not modelled, nor `artifactId` values that are truthy but not strings.
- The middleware's cookie copying and response objects are not modelled. `new URL(...)` validity is the input flag `urlParses`.
- Caption entries are given in the object's enumeration order. JavaScript enumerates integer-like keys first, and image URLs are not integer-like.
- String lengths count `char`s, not UTF-16 code units. A transcript with characters outside the Basic Multilingual Plane is measured and cut differently.
- ArtifactActions.CreateArtifact: an optional field left out of the form is stored as `null`. That assumes the columns default to null; the table definition is not part of this model.
- ArtifactActions.PublicIdsToDelete: the contract states which public ids are deleted. It does not state their order or repetitions, which follow the removed URLs.

## Findings

| source | as written | input that shows it | evidently intended | confidence | as-written member | corrected member |
|---|---|---|---|---|---|---|
| app/api/analyze/summary/route.ts:167-181 | the failure handler calls `request.json()` a second time; a request body can be read only once, so that call throws, the inner `catch` swallows it, and the `error` status is never written | artifact "a3" with a transcript; the generator throws "timeout"; the row stays `processing` with no error message | keep `artifactId` from the first read and record `analysis_status = error` with the message | not executed; rests on the single-use body of a Fetch `Request` | `SummaryRoute.AsWrittenFailureLeavesProcessing` | `SummaryRoute.FailureRecordsError` |

=== FILE: adjacency.dfy ===
/** Previous/next navigation inside a collection (`getAdjacentArtifacts`). */
module Adjacency {
  import opened Common
  import opened Seqs

  /** A row of the collection listing: id, title and creation time, newest first. */
  datatype ListedArtifact = ListedArtifact(id: string, title: string, createdAt: string)

  /** Neighbours of an artifact, its 1-based position (0 when unknown) and the list size. */
  datatype Adjacent = Adjacent(
    previous: Option<ListedArtifact>,
    next: Option<ListedArtifact>,
    currentPosition: nat,
    totalCount: nat)

  function Ids(rows: seq<ListedArtifact>): (ids: seq<string>)
    ensures |ids| == |rows|
    ensures forall i :: 0 <= i < |rows| ==> ids[i] == rows[i].id
  {
    seq(|rows|, i requires 0 <= i < |rows| => rows[i].id)
  }

  /**
   * The artifact's neighbours in the listing: `previous` is the newer one before
   * it, `next` the older one after it.
   */
  function GetAdjacent(query: Query<ListedArtifact>, artifactId: string): (adj: Adjacent)
    ensures query.QueryFailed? ==> adj == Adjacent(None, None, 0, 0)
    ensures query.Rows? ==> adj.totalCount == |query.rows|
    ensures query.Rows? && artifactId !in Ids(query.rows) ==> adj == Adjacent(None, None, 0, |query.rows|)
    ensures query.Rows? && artifactId in Ids(query.rows) ==>
      var rows := query.rows;
      var i := adj.currentPosition - 1;
      && 1 <= adj.currentPosition <= adj.totalCount
      && rows[i].id == artifactId
      && (forall j :: 0 <= j < i ==> rows[j].id != artifactId)
      && (adj.previous.Some? <==> i > 0)
      && (i > 0 ==> adj.previous == Some(rows[i - 1]))
      && (adj.next.Some? <==> i < |rows| - 1)
      && (i < |rows| - 1 ==> adj.next == Some(rows[i + 1]))
  {
    match query
    case QueryFailed => Adjacent(None, None, 0, 0)
    case Rows(rows) =>
      var i := IndexOf(Ids(rows), artifactId);
      if i == -1 then Adjacent(None, None, 0, |rows|)
      else
        var previous := if i > 0 then Some(rows[i - 1]) else None;
        var next := if i < |rows| - 1 then Some(rows[i + 1]) else None;
        Adjacent(previous, next, i + 1, |rows|)
  }

  /**
   * With distinct ids, stepping to `next` and asking again leads back: the
   * next artifact's `previous` is the current one, one position later.
   */
  lemma NextThenPrevious(rows: seq<ListedArtifact>, artifactId: string)
    requires NoDuplicates(Ids(rows))
    requires artifactId in Ids(rows)
    requires GetAdjacent(Rows(rows), artifactId).next.Some?
    ensures var here := GetAdjacent(Rows(rows), artifactId);
      var there := GetAdjacent(Rows(rows), here.next.value.id);
      && there.previous.Some? && there.previous.value.id == artifactId
      && there.currentPosition == here.currentPosition + 1
  {
    var here := GetAdjacent(Rows(rows), artifactId);
    var i := here.currentPosition - 1;
    var nextId := rows[i + 1].id;
    assert Ids(rows)[i + 1] == nextId;
    var there := GetAdjacent(Rows(rows), nextId);
    var k := there.currentPosition - 1;
    assert Ids(rows)[k] == Ids(rows)[i + 1];
  }

  /** With distinct ids, the position reported is the artifact's only position. */
  lemma PositionUnique(rows: seq<ListedArtifact>, artifactId: string, k: nat)
    requires NoDuplicates(Ids(rows))
    requires k < |rows| && rows[k].id == artifactId
    ensures GetAdjacent(Rows(rows), artifactId).currentPosition == k + 1
  {
    assert Ids(rows)[k] == artifactId;
    var i := GetAdjacent(Rows(rows), artifactId).currentPosition - 1;
    assert Ids(rows)[i] == Ids(rows)[k];
  }
}

=== FILE: artifact_actions.dfy ===
/**
 * The artifact server actions that hold decisions: creating and editing an
 * artifact (validation, sign-in and ownership gates, media clean-up) and
 * attaching author names to the public listing.
 */
module ArtifactActions {
  import opened Common
  import opened Seqs
  import opened Artifacts
  import opened Media

  /**
   * An optional field of the edit as the action receives it: left out of the
   * object (`undefined`, which the update drops, so the column keeps its value)
   * or sent, possibly as `null`.
   */
  datatype Field<T> = Omitted | Sent(value: T)

  /** The column's value after an update that carries field `f`. */
  function Patched<T>(f: Field<T>, current: T): T {
    match f
    case Omitted => current
    case Sent(v) => v
  }

  /** The fields of the edit form (`UpdateArtifactInput`). */
  datatype UpdateInput = UpdateInput(
    id: string,
    title: string,
    description: Field<Option<string>>,
    yearAcquired: Field<Option<int>>,
    origin: Field<Option<string>>,
    mediaUrls: Option<seq<Url>>)

  /** The fields of the create form (`CreateArtifactInput`). */
  datatype CreateInput = CreateInput(
    title: string,
    description: Option<string>,
    collectionId: Option<string>,
    yearAcquired: Option<int>,
    origin: Option<string>,
    mediaUrls: Option<seq<Url>>)

  datatype UpdateResult =
    | UpdateInvalid
    | UpdateUnauthorized
    | UpdateFailed
    | Updated(artifact: Artifact)

  datatype CreateResult =
    | CreateInvalid
    | CreateUnauthorized
    | CreateFailed
    | RedirectTo(path: string)

  /** What the insert answers: the id the table gave the new row, or an error. */
  datatype InsertOutcome = Inserted(newId: string) | InsertRejected(message: string)

  /**
   * The outcome of an edit: the result, the table afterwards, the media public
   * ids deleted from the media host (in order), and the invalidated paths.
   */
  datatype UpdateRun = UpdateRun(result: UpdateResult, store: Store, deleted: seq<string>, revalidated: seq<string>)

  datatype CreateRun = CreateRun(result: CreateResult, store: Store, revalidated: seq<string>)

  /** Message the action returns for each result. */
  function UpdateMessage(r: UpdateResult): Option<string> {
    match r
    case UpdateInvalid => Some("Invalid input")
    case UpdateUnauthorized => Some("Unauthorized")
    case UpdateFailed => Some("Failed to update artifact. Please try again.")
    case Updated(_) => None
  }

  function CreateMessage(r: CreateResult): Option<string> {
    match r
    case CreateInvalid => Some("Invalid input")
    case CreateUnauthorized => Some("Unauthorized")
    case CreateFailed => Some("Failed to create artifact. Please try again.")
    case RedirectTo(_) => None
  }

  /**
   * The media public ids to delete for the removed URLs: each URL whose public
   * id can be extracted (non-empty), in order.
   */
  function PublicIdsToDelete(urls: seq<Url>, publicIdOf: Url -> Option<string>): (ids: seq<string>)
    ensures |ids| <= |urls|
    ensures forall p :: p in ids ==> exists u :: u in urls && publicIdOf(u) == Some(p) && p != ""
    ensures forall u :: u in urls && Truthy(publicIdOf(u)) ==> publicIdOf(u).value in ids
  {
    if |urls| == 0 then []
    else
      var rest := PublicIdsToDelete(urls[1..], publicIdOf);
      assert forall u :: u in urls[1..] ==> u in urls;
      assert forall u :: u in urls ==> u == urls[0] || u in urls[1..];
      if Truthy(publicIdOf(urls[0])) then [publicIdOf(urls[0]).value] + rest else rest
  }

  /**
   * The row after an applied edit: the title, each optional field that was
   * sent, and the media list without repeats (an absent list counts as empty).
   */
  function ApplyEdit(a: Artifact, input: UpdateInput): Artifact {
    a.(title := input.title,
       description := Patched(input.description, a.description),
       yearAcquired := Patched(input.yearAcquired, a.yearAcquired),
       origin := Patched(input.origin, a.origin),
       mediaUrls := Dedup(input.mediaUrls.GetOr([])))
  }

  /** The caller owns the artifact: signed in, the row is readable, and its owner is the caller. */
  predicate Owns(user: Option<string>, id: string, store: Store, readFails: bool) {
    user.Some? && !readFails && id in store && store[id].userId == user.value
  }

  /** Path of the collection page to refresh: its slug if it has one, else its id (`null` printed as such). */
  function CollectionPath(slug: Option<string>, collectionId: Option<string>): string {
    if Truthy(slug) then "/collections/" + slug.value
    else "/collections/" + collectionId.GetOr("null")
  }

  /**
   * `updateArtifact`: validate, require a signed-in owner, delete the media
   * the edit dropped, then write the edited row.
   */
  function UpdateArtifact(
    input: UpdateInput,
    oldMediaUrls: seq<Url>,
    valid: UpdateInput -> bool,
    user: Option<string>,
    store: Store,
    readFails: bool,
    collectionSlug: Option<string>,
    publicIdOf: Url -> Option<string>,
    write: WriteOutcome): (run: UpdateRun)
    ensures !valid(input) ==> run == UpdateRun(UpdateInvalid, store, [], [])
    ensures !valid(input) ==> UpdateMessage(run.result) == Some("Invalid input")
    ensures valid(input) && !Owns(user, input.id, store, readFails) ==>
      run == UpdateRun(UpdateUnauthorized, store, [], [])
    ensures valid(input) && !Owns(user, input.id, store, readFails) ==>
      UpdateMessage(run.result) == Some("Unauthorized")
    ensures valid(input) && Owns(user, input.id, store, readFails) && !write.Applied? ==>
      UpdateMessage(run.result) == Some("Failed to update artifact. Please try again.")
    ensures UpdateMessage(run.result).None? <==> run.result.Updated?
    ensures valid(input) && Owns(user, input.id, store, readFails) ==>
      run.deleted == PublicIdsToDelete(RemovedUrls(oldMediaUrls, input.mediaUrls.GetOr([])), publicIdOf)
    ensures run.result.Updated? <==> valid(input) && Owns(user, input.id, store, readFails) && write.Applied?
    ensures run.result.Updated? ==>
      && run.store == store[input.id := run.result.artifact]
      && run.result.artifact == ApplyEdit(store[input.id], input)
      && NoDuplicates(run.result.artifact.mediaUrls)
    ensures run.result.Updated? ==>
      run.revalidated == ["/artifacts/" + input.id, "/collections",
                          CollectionPath(collectionSlug, store[input.id].collectionId)]
    ensures !run.result.Updated? ==> run.store == store && run.revalidated == []
  {
    if !valid(input) then UpdateRun(UpdateInvalid, store, [], [])
    else if !Owns(user, input.id, store, readFails) then UpdateRun(UpdateUnauthorized, store, [], [])
    else
      var newUrls := input.mediaUrls.GetOr([]);
      var deleted := PublicIdsToDelete(RemovedUrls(oldMediaUrls, newUrls), publicIdOf);
      match write
      case Rejected(_) => UpdateRun(UpdateFailed, store, deleted, [])
      case AppliedToNoRow => UpdateRun(UpdateFailed, store, deleted, [])
      case Applied =>
        var existing := store[input.id];
        var edited := ApplyEdit(existing, input);
        UpdateRun(Updated(edited), store[input.id := edited], deleted,
                  ["/artifacts/" + input.id, "/collections", CollectionPath(collectionSlug, existing.collectionId)])
  }

  /** An edit changes only the form fields: owner, collection, content and analysis fields stay. */
  lemma EditKeepsOtherFields(a: Artifact, input: UpdateInput)
    ensures var b := ApplyEdit(a, input);
      && b.id == a.id && b.userId == a.userId && b.collectionId == a.collectionId
      && b.transcript == a.transcript && b.imageCaptions == a.imageCaptions
      && b.aiDescription == a.aiDescription && b.analysisStatus == a.analysisStatus
      && b.analysisError == a.analysisError
      && (forall u :: u in b.mediaUrls <==> u in input.mediaUrls.GetOr([]))
  {
  }

  /**
   * An edit writes the title and every optional field that was sent (`null`
   * included), and leaves each omitted one as it was.
   */
  lemma EditWritesSentFields(a: Artifact, input: UpdateInput)
    ensures var b := ApplyEdit(a, input);
      && b.title == input.title
      && (input.description.Omitted? ==> b.description == a.description)
      && (input.description.Sent? ==> b.description == input.description.value)
      && (input.yearAcquired.Omitted? ==> b.yearAcquired == a.yearAcquired)
      && (input.yearAcquired.Sent? ==> b.yearAcquired == input.yearAcquired.value)
      && (input.origin.Omitted? ==> b.origin == a.origin)
      && (input.origin.Sent? ==> b.origin == input.origin.value)
  {
  }

  /** Edits keep the table well formed. */
  lemma UpdatePreservesWellFormed(
    input: UpdateInput, oldMediaUrls: seq<Url>, valid: UpdateInput -> bool, user: Option<string>,
    store: Store, readFails: bool, collectionSlug: Option<string>, publicIdOf: Url -> Option<string>,
    write: WriteOutcome)
    requires WellFormed(store)
    ensures WellFormed(UpdateArtifact(input, oldMediaUrls, valid, user, store, readFails,
                                      collectionSlug, publicIdOf, write).store)
  {
    var run := UpdateArtifact(input, oldMediaUrls, valid, user, store, readFails, collectionSlug, publicIdOf, write);
    if run.result.Updated? {
      assert StatusConsistent(store[input.id]);
      assert StatusConsistent(run.result.artifact);
    }
  }

  /** Creating an artifact keeps the table well formed: the new row is stored under its id and has no analysis. */
  lemma CreatePreservesWellFormed(
    input: CreateInput, valid: CreateInput -> bool, user: Option<string>, store: Store, insert: InsertOutcome)
    requires insert.Inserted? ==> insert.newId !in store
    requires WellFormed(store)
    ensures WellFormed(CreateArtifact(input, valid, user, store, insert).store)
  {
  }

  /** The row `createArtifact` inserts: form fields, the caller as owner, media without repeats. */
  function NewArtifact(id: string, input: CreateInput, userId: string): Artifact {
    Artifact(id, userId, input.collectionId, input.title, input.description, input.yearAcquired,
             input.origin, Dedup(input.mediaUrls.GetOr([])), None, None, None, None, None)
  }

  /**
   * `createArtifact`: validate, require a signed-in user, insert the row and
   * redirect to its page. The table assigns the id, so it is not in use yet.
   */
  function CreateArtifact(
    input: CreateInput,
    valid: CreateInput -> bool,
    user: Option<string>,
    store: Store,
    insert: InsertOutcome): (run: CreateRun)
    requires insert.Inserted? ==> insert.newId !in store
    ensures !valid(input) ==> run == CreateRun(CreateInvalid, store, [])
    ensures !valid(input) ==> CreateMessage(run.result) == Some("Invalid input")
    ensures valid(input) && user.None? ==> run == CreateRun(CreateUnauthorized, store, [])
    ensures valid(input) && user.None? ==> CreateMessage(run.result) == Some("Unauthorized")
    ensures valid(input) && user.Some? && insert.InsertRejected? ==>
      CreateMessage(run.result) == Some("Failed to create artifact. Please try again.")
    ensures CreateMessage(run.result).None? <==> run.result.RedirectTo?
    ensures run.result.RedirectTo? <==> valid(input) && user.Some? && insert.Inserted?
    ensures run.result.RedirectTo? ==>
      && run.result.path == "/artifacts/" + insert.newId
      && run.store.Keys == store.Keys + {insert.newId}
      && (forall k :: k in store ==> run.store[k] == store[k])
      && run.revalidated == ["/artifacts", "/collections"]
           + (if Truthy(input.collectionId) then ["/collections/" + input.collectionId.value] else [])
    ensures run.result.RedirectTo? ==>
      var row := run.store[insert.newId];
      && row.id == insert.newId
      && row.userId == user.value
      && row.title == input.title
      && row.description == input.description
      && row.collectionId == input.collectionId
      && row.yearAcquired == input.yearAcquired
      && row.origin == input.origin
      && row.mediaUrls == Dedup(input.mediaUrls.GetOr([]))
      && row.transcript.None? && row.imageCaptions.None?
      && row.aiDescription.None? && row.analysisStatus.None? && row.analysisError.None?
    ensures !run.result.RedirectTo? ==> run.store == store && run.revalidated == []
  {
    if !valid(input) then CreateRun(CreateInvalid, store, [])
    else if user.None? then CreateRun(CreateUnauthorized, store, [])
    else
      match insert
      case InsertRejected(_) => CreateRun(CreateFailed, store, [])
      case Inserted(id) =>
        var paths := ["/artifacts", "/collections"]
          + (if Truthy(input.collectionId) then ["/collections/" + input.collectionId.value] else []);
        CreateRun(RedirectTo("/artifacts/" + id), store[id := NewArtifact(id, input, user.value)], paths)
  }

  /** A `profiles` row: id and optional display name. */
  datatype Profile = Profile(id: string, displayName: Option<string>)

  /** An artifact of the public listing with its author's name attached. */
  datatype Authored = Authored(artifact: Artifact, authorName: Option<string>)

  /** `new Map(profiles.map(p => [p.id, p.display_name]))`: a later row with the same id wins. */
  function ProfileMap(profiles: seq<Profile>): (m: map<string, Option<string>>)
    ensures forall id :: id in m <==> exists i :: 0 <= i < |profiles| && profiles[i].id == id
  {
    if |profiles| == 0 then map[]
    else
      var init := profiles[..|profiles| - 1];
      var last := profiles[|profiles| - 1];
      assert forall i :: 0 <= i < |init| ==> init[i] == profiles[i];
      ProfileMap(init)[last.id := last.displayName]
  }

  /** The map holds, for each id, the display name of the last row with that id. */
  lemma {:induction false} ProfileMapLastWins(profiles: seq<Profile>, id: string)
    requires id in ProfileMap(profiles)
    ensures exists i ::
      && 0 <= i < |profiles| && profiles[i].id == id
      && ProfileMap(profiles)[id] == profiles[i].displayName
      && forall j :: i < j < |profiles| ==> profiles[j].id != id
  {
    var init := profiles[..|profiles| - 1];
    var last := profiles[|profiles| - 1];
    assert ProfileMap(profiles) == ProfileMap(init)[last.id := last.displayName];
    if last.id != id {
      ProfileMapLastWins(init, id);
      var i :| 0 <= i < |init| && init[i].id == id && ProfileMap(init)[id] == init[i].displayName
        && forall j :: i < j < |init| ==> init[j].id != id;
      LastInPrefix(profiles, init, i, id);
    } else {
      assert profiles[|profiles| - 1].id == id;
    }
  }

  /** The last row with an id among all but the final row stays last when the final row has another id. */
  lemma LastInPrefix(profiles: seq<Profile>, init: seq<Profile>, i: nat, id: string)
    requires 0 < |profiles| && init == profiles[..|profiles| - 1] && i < |init|
    requires profiles[|profiles| - 1].id != id
    requires forall j :: i < j < |init| ==> init[j].id != id
    ensures forall j :: i < j < |profiles| ==> profiles[j].id != id
  {
    forall j | i < j < |profiles| ensures profiles[j].id != id {
      if j < |init| {
        assert init[j] == profiles[j];
      }
    }
  }

  /** `profileMap.get(userId) || null`: the display name, unless missing or empty. */
  function AuthorName(m: map<string, Option<string>>, userId: string): Option<string> {
    if userId in m && Truthy(m[userId]) then m[userId] else None
  }

  /**
   * `getAllPublicArtifacts`, after the query: each fetched artifact, in order,
   * with its owner's display name. A failed profile read leaves every name null.
   */
  function PublicArtifacts(query: Query<Artifact>, profiles: Option<seq<Profile>>): (r: seq<Authored>)
    ensures query.QueryFailed? ==> r == []
    ensures query.Rows? ==> |r| == |query.rows|
    ensures query.Rows? ==> forall i :: 0 <= i < |r| ==>
      && r[i].artifact == query.rows[i]
      && (r[i].authorName.Some? ==> r[i].authorName.value != "")
      && (profiles.None? ==> r[i].authorName.None?)
  {
    match query
    case QueryFailed => []
    case Rows(rows) =>
      var m := if profiles.Some? then ProfileMap(profiles.value) else map[];
      seq(|rows|, i requires 0 <= i < |rows| => Authored(rows[i], AuthorName(m, rows[i].userId)))
  }

  /**
   * An entry has an author name exactly when the owner's last profile row has a
   * non-empty display name, and then it is that name.
   */
  lemma AuthorNameFromLastProfile(rows: seq<Artifact>, profiles: seq<Profile>, i: nat)
    requires i < |rows|
    ensures var entry := PublicArtifacts(Rows(rows), Some(profiles))[i];
      var owner := rows[i].userId;
      && (entry.authorName.Some? <==>
            exists k :: 0 <= k < |profiles| && profiles[k].id == owner && Truthy(profiles[k].displayName)
              && forall j :: k < j < |profiles| ==> profiles[j].id != owner)
      && (entry.authorName.Some? ==>
            exists k :: 0 <= k < |profiles| && profiles[k].id == owner
              && entry.authorName == profiles[k].displayName
              && forall j :: k < j < |profiles| ==> profiles[j].id != owner)
  {
    var owner := rows[i].userId;
    var m := ProfileMap(profiles);
    if owner in m {
      ProfileMapLastWins(profiles, owner);
      var k :| 0 <= k < |profiles| && profiles[k].id == owner && m[owner] == profiles[k].displayName
        && forall j :: k < j < |profiles| ==> profiles[j].id != owner;
      forall k' | 0 <= k' < |profiles| && profiles[k'].id == owner
          && forall j :: k' < j < |profiles| ==> profiles[j].id != owner
        ensures k' == k
      {
      }
    }
  }
}

=== FILE: artifacts.dfy ===
/** The artifact record and the table that holds it. */
module Artifacts {
  import opened Common

  /** `analysis_status`: `null` before the first analysis, then one of three values. */
  datatype Status = Processing | Done | Error

  /** One image caption: the image URL (the object key) and its caption text. */
  datatype CaptionEntry = CaptionEntry(url: string, caption: string)

  /**
   * A row of the `artifacts` table. `imageCaptions` lists the JSON object's
   * entries in enumeration order; timestamps are not modelled.
   */
  datatype Artifact = Artifact(
    id: string,
    userId: string,
    collectionId: Option<string>,
    title: string,
    description: Option<string>,
    yearAcquired: Option<int>,
    origin: Option<string>,
    mediaUrls: seq<string>,
    transcript: Option<string>,
    imageCaptions: Option<seq<CaptionEntry>>,
    aiDescription: Option<string>,
    analysisStatus: Option<Status>,
    analysisError: Option<string>)

  /** The `artifacts` table, keyed by id. */
  type Store = map<string, Artifact>

  /**
   * What the backend answers to a single update: it changed the row; it
   * reported no error but its filter matched no row it may change (row-level
   * security can hide a readable row from writes); or it returned an error.
   */
  datatype WriteOutcome = Applied | AppliedToNoRow | Rejected(message: string)

  /** Shortest `description_markdown` the summary schema and the route accept. */
  const MinDescriptionLength := 10

  /**
   * The status fields agree with each other: `done` carries a description of
   * acceptable length and no error; `error` carries an error message.
   */
  predicate StatusConsistent(a: Artifact) {
    && (a.analysisStatus == Some(Done) ==>
          a.aiDescription.Some? && |a.aiDescription.value| >= MinDescriptionLength && a.analysisError.None?)
    && (a.analysisStatus == Some(Error) ==> a.analysisError.Some?)
  }

  /** Every row is stored under its own id and has consistent status fields. */
  predicate WellFormed(store: Store) {
    forall k :: k in store ==> store[k].id == k && StatusConsistent(store[k])
  }

  /** `store` and `store'` agree on every row except possibly `id`'s, and have the same ids. */
  predicate OnlyRowChanged(store: Store, store': Store, id: string) {
    && store'.Keys == store.Keys
    && forall k :: k in store && k != id ==> store'[k] == store[k]
  }

  /** The artifact's content fields, i.e. everything the analysis does not write. */
  predicate SameContent(a: Artifact, b: Artifact) {
    a.(aiDescription := None, analysisStatus := None, analysisError := None)
      == b.(aiDescription := None, analysisStatus := None, analysisError := None)
  }

  /** `update(...).eq("id", id)`: applies `f` to the row if it exists and the write changes it. */
  function UpdateRow(store: Store, id: string, outcome: WriteOutcome, f: Artifact -> Artifact): (store': Store)
    ensures OnlyRowChanged(store, store', id)
    ensures id in store && outcome.Applied? ==> store'[id] == f(store[id])
    ensures id !in store || !outcome.Applied? ==> store' == store
  {
    if id in store && outcome.Applied? then store[id := f(store[id])] else store
  }
}

=== FILE: common.dfy ===
/** Shared optional-value wrapper. JavaScript's `null`/`undefined` become `None`. */
module Common {

  datatype Option<+T> = None | Some(value: T) {

    /** The wrapped value, or `default` when there is none. */
    function GetOr(default: T): T {
      match this
      case Some(v) => v
      case None => default
    }
  }

  /** The answer of a list query: an error (or no data), or the rows in the order asked for. */
  datatype Query<T> = QueryFailed | Rows(rows: seq<T>)

  /** `Some(s)` with `s` non-empty: the JavaScript truthiness test `!!s` on an optional string. */
  predicate Truthy(s: Option<string>) {
    s.Some? && s.value != ""
  }

  function Min(a: int, b: int): int {
    if a <= b then a else b
  }
}

=== FILE: decimal.dfy ===
/** Decimal rendering of natural numbers, as JavaScript template literals print them. */
module Decimal {

  predicate IsDigit(c: char) {
    '0' <= c <= '9'
  }

  predicate AllDigits(s: string) {
    forall i :: 0 <= i < |s| ==> IsDigit(s[i])
  }

  function DigitChar(d: nat): (c: char)
    requires d < 10
    ensures IsDigit(c)
  {
    ('0' as int + d) as char
  }

  function DigitValue(c: char): nat
    requires IsDigit(c)
  {
    c as int - '0' as int
  }

  /** `${n}`: digits without a leading zero (apart from "0" itself). */
  function NatToString(n: nat): (s: string)
    ensures |s| >= 1 && AllDigits(s)
    ensures s[0] == '0' <==> n == 0
    ensures n == 0 ==> s == "0"
  {
    if n < 10 then [DigitChar(n)]
    else NatToString(n / 10) + [DigitChar(n % 10)]
  }

  /** The value a string of decimal digits denotes. */
  function ParseDigits(s: string): nat
    requires AllDigits(s)
  {
    if |s| == 0 then 0
    else ParseDigits(s[..|s| - 1]) * 10 + DigitValue(s[|s| - 1])
  }

  /** Reading the rendering back gives the number. */
  lemma {:induction false} ParseNatToString(n: nat)
    ensures ParseDigits(NatToString(n)) == n
  {
    var s := NatToString(n);
    if n >= 10 {
      ParseNatToString(n / 10);
      assert s[..|s| - 1] == NatToString(n / 10);
    }
  }

  /** Different numbers render differently. */
  lemma NatToStringInjective(a: nat, b: nat)
    requires NatToString(a) == NatToString(b)
    ensures a == b
  {
    ParseNatToString(a);
    ParseNatToString(b);
  }
}

=== FILE: media.dfy ===
/** Media-URL list helpers used when an artifact is created or edited. */
module Media {
  import opened Seqs

  /** A media URL. */
  type Url = string

  /**
   * `Array.from(new Set(urls))`: each value once, at the place it first
   * occurs. Defined by the insertion the `Set` performs, element by element.
   */
  function Dedup(xs: seq<Url>): (r: seq<Url>)
    ensures forall x :: x in r <==> x in xs
    ensures NoDuplicates(r)
    ensures |r| <= |xs|
  {
    if |xs| == 0 then []
    else
      var r := Dedup(xs[..|xs| - 1]);
      var x := xs[|xs| - 1];
      if x in r then r else r + [x]
  }

  /** Looking a value up in a longer list finds it where the shorter list had it. */
  lemma IndexOfExtend(xs: seq<Url>, x: Url, y: Url)
    requires y in xs
    ensures IndexOf(xs + [x], y) == IndexOf(xs, y)
  {
    var i := IndexOf(xs, y);
    assert (xs + [x])[i] == y;
    assert (xs + [x])[..i] == xs[..i];
  }

  /** Dedup keeps values in the order of their first occurrence in the input. */
  lemma {:induction false} DedupFirstOccurrenceOrder(xs: seq<Url>)
    ensures forall i, j :: 0 <= i < j < |Dedup(xs)| ==> IndexOf(xs, Dedup(xs)[i]) < IndexOf(xs, Dedup(xs)[j])
  {
    if |xs| > 0 {
      var init := xs[..|xs| - 1];
      var x := xs[|xs| - 1];
      assert xs == init + [x];
      DedupFirstOccurrenceOrder(init);
      var r0 := Dedup(init);
      var r := Dedup(xs);
      assert r == r0 || (x !in init && r == r0 + [x]);
      forall i, j | 0 <= i < j < |r|
        ensures IndexOf(xs, r[i]) < IndexOf(xs, r[j])
      {
        assert r[i] == r0[i] && r0[i] in init;
        IndexOfExtend(init, x, r[i]);
        assert IndexOf(init, r[i]) < |init|;
        if j < |r0| {
          assert r[j] == r0[j] && r0[j] in init;
          IndexOfExtend(init, x, r[j]);
          assert IndexOf(init, r0[i]) < IndexOf(init, r0[j]);
          assert IndexOf(xs, r[i]) == IndexOf(init, r0[i]);
          assert IndexOf(xs, r[j]) == IndexOf(init, r0[j]);
        } else {
          assert r[j] == x && x !in init;
          var k := IndexOf(xs, x);
          assert xs[|init|] == x;
          assert k == |init|;
          assert IndexOf(xs, r[i]) == IndexOf(init, r0[i]);
        }
      }
    }
  }

  /** A list without repeats is left as it is. */
  lemma {:induction false} DedupOfDistinct(xs: seq<Url>)
    requires NoDuplicates(xs)
    ensures Dedup(xs) == xs
  {
    if |xs| > 0 {
      var init := xs[..|xs| - 1];
      assert NoDuplicates(init);
      DedupOfDistinct(init);
      var x := xs[|xs| - 1];
      assert x !in init;
      assert init + [x] == xs;
    }
  }

  /** Deduplicating twice is the same as once. */
  lemma DedupIdempotent(xs: seq<Url>)
    ensures Dedup(Dedup(xs)) == Dedup(xs)
  {
    DedupOfDistinct(Dedup(xs));
  }

  /** `r` holds the values of `xs` once each, in the order they first occur in `xs`. */
  predicate InFirstOccurrenceOrder(r: seq<Url>, xs: seq<Url>) {
    && (forall x :: x in r ==> x in xs)
    && (forall x :: x in xs ==> x in r)
    && NoDuplicates(r)
    && (forall i, j :: 0 <= i < j < |r| ==> IndexOf(xs, r[i]) < IndexOf(xs, r[j]))
  }

  /** Dedup's result is in first-occurrence order. */
  lemma DedupOrdered(xs: seq<Url>)
    ensures InFirstOccurrenceOrder(Dedup(xs), xs)
  {
    DedupFirstOccurrenceOrder(xs);
  }

  /** Two lists in first-occurrence order for the same input start with the same value. */
  lemma SameFirst(xs: seq<Url>, r: seq<Url>, d: seq<Url>)
    requires InFirstOccurrenceOrder(r, xs) && InFirstOccurrenceOrder(d, xs)
    requires |r| > 0 && |d| > 0
    ensures r[0] == d[0]
  {
    assert d[0] in xs && r[0] in xs;
    var b :| 0 <= b < |r| && r[b] == d[0];
    var a :| 0 <= a < |d| && d[a] == r[0];
    assert IndexOf(xs, r[0]) <= IndexOf(xs, r[b]);
    assert IndexOf(xs, d[0]) <= IndexOf(xs, d[a]);
    var k := IndexOf(xs, r[0]);
    assert k == IndexOf(xs, d[0]);
    assert xs[k] == r[0] && xs[k] == d[0];
  }

  /** Dedup's result is the only list in first-occurrence order. */
  lemma {:induction false} DedupUnique(xs: seq<Url>, r: seq<Url>)
    requires InFirstOccurrenceOrder(r, xs)
    ensures r == Dedup(xs)
    decreases |xs|
  {
    var d := Dedup(xs);
    DedupOrdered(xs);
    NonEmptyWithInput(xs, r);
    NonEmptyWithInput(xs, d);
    if |xs| > 0 {
      SameFirst(xs, r, d);
      RemoveShorter(xs, r[0]);
      TailInFirstOccurrenceOrder(xs, r);
      TailInFirstOccurrenceOrder(xs, d);
      DedupUnique(Remove(xs, r[0]), r[1..]);
      DedupUnique(Remove(xs, r[0]), d[1..]);
      assert r == [r[0]] + r[1..];
      assert d == [d[0]] + d[1..];
    }
  }

  /** A list in first-occurrence order is empty exactly when the input is. */
  lemma NonEmptyWithInput(xs: seq<Url>, r: seq<Url>)
    requires InFirstOccurrenceOrder(r, xs)
    ensures |r| > 0 <==> |xs| > 0
    ensures |r| > 0 ==> r[0] in xs
  {
    if |r| > 0 { assert r[0] in xs; }
    if |xs| > 0 { assert xs[0] in r; }
  }

  /** Dropping the first value of an ordered deduplication leaves one of the input without that value. */
  lemma TailInFirstOccurrenceOrder(xs: seq<Url>, r: seq<Url>)
    requires InFirstOccurrenceOrder(r, xs) && |r| > 0
    ensures InFirstOccurrenceOrder(r[1..], Remove(xs, r[0]))
  {
    var first := r[0];
    var xs' := Remove(xs, first);
    RemoveSpec(xs, first);
    forall x
      ensures x in r[1..] <==> x in xs'
    {
      if x in r[1..] {
        var k :| 1 <= k < |r| && r[k] == x;
        assert r[k] != r[0];
      }
      if x in xs' {
        assert x in r;
        var k :| 0 <= k < |r| && r[k] == x;
        assert k != 0;
        assert r[1..][k - 1] == x;
      }
    }
    forall i, j | 0 <= i < j < |r[1..]|
      ensures IndexOf(xs', r[1..][i]) < IndexOf(xs', r[1..][j])
    {
      assert r[1..][i] == r[i + 1] && r[1..][j] == r[j + 1];
      assert r[i + 1] != first && r[j + 1] != first;
      RemoveKeepsOrder(xs, first, r[i + 1], r[j + 1]);
    }
  }

  /** `xs` without any occurrence of `v`. */
  function Remove(xs: seq<Url>, v: Url): seq<Url> {
    if |xs| == 0 then []
    else if xs[0] == v then Remove(xs[1..], v)
    else [xs[0]] + Remove(xs[1..], v)
  }

  lemma {:induction false} RemoveSpec(xs: seq<Url>, v: Url)
    ensures forall x :: x in Remove(xs, v) <==> x in xs && x != v
  {
    if |xs| > 0 {
      RemoveSpec(xs[1..], v);
      assert xs == [xs[0]] + xs[1..];
    }
  }

  lemma {:induction false} RemoveShorter(xs: seq<Url>, v: Url)
    ensures |Remove(xs, v)| <= |xs|
    ensures v in xs ==> |Remove(xs, v)| < |xs|
  {
    if |xs| > 0 {
      RemoveShorter(xs[1..], v);
      if xs[0] != v {
        assert v in xs ==> v in xs[1..];
      }
    }
  }

  /** Removing a value keeps the first-occurrence order of the others. */
  lemma {:induction false} RemoveKeepsOrder(xs: seq<Url>, v: Url, a: Url, b: Url)
    requires a != v && b != v && a in xs && b in xs
    ensures IndexOf(xs, a) < IndexOf(xs, b) <==> IndexOf(Remove(xs, v), a) < IndexOf(Remove(xs, v), b)
  {
    RemoveSpec(xs, v);
    if xs[0] == v {
      assert a in xs[1..] && b in xs[1..];
      RemoveKeepsOrder(xs[1..], v, a, b);
    } else if xs[0] == a || xs[0] == b {
    } else {
      assert a in xs[1..] && b in xs[1..];
      RemoveKeepsOrder(xs[1..], v, a, b);
    }
  }

  /**
   * `oldMediaUrls.filter(url => !newMediaUrls.includes(url))`: the old URLs
   * that the edit dropped, in their old order and with their old repetitions.
   */
  function RemovedUrls(oldUrls: seq<Url>, newUrls: seq<Url>): (r: seq<Url>)
    ensures forall x :: x in r <==> x in oldUrls && x !in newUrls
    ensures forall x :: Count(r, x) == if x in newUrls then 0 else Count(oldUrls, x)
    ensures IsSubsequence(r, oldUrls)
  {
    if |oldUrls| == 0 then []
    else
      var rest := RemovedUrls(oldUrls[1..], newUrls);
      assert oldUrls == [oldUrls[0]] + oldUrls[1..];
      if oldUrls[0] in newUrls then
        SubsequenceOfTail(rest, oldUrls);
        rest
      else
        assert ([oldUrls[0]] + rest)[1..] == rest;
        [oldUrls[0]] + rest
  }

  /** A subsequence of a list's tail is a subsequence of the list. */
  lemma {:induction false} SubsequenceOfTail(sub: seq<Url>, xs: seq<Url>)
    requires |xs| > 0 && IsSubsequence(sub, xs[1..])
    ensures IsSubsequence(sub, xs)
    decreases |xs|, 1
  {
    if |sub| > 0 && sub[0] == xs[0] {
      SubsequenceDropHead(sub, xs[1..]);
    }
  }

  /** Dropping the first element of a subsequence leaves a subsequence. */
  lemma {:induction false} SubsequenceDropHead(sub: seq<Url>, ys: seq<Url>)
    requires |sub| > 0 && IsSubsequence(sub, ys)
    ensures IsSubsequence(sub[1..], ys)
    decreases |ys|, 2
  {
    assert |ys| > 0;
    if sub[0] == ys[0] {
      SubsequenceOfTail(sub[1..], ys);
    } else {
      SubsequenceDropHead(sub, ys[1..]);
      SubsequenceOfTail(sub[1..], ys);
    }
  }
}

=== FILE: route_guard.dfy ===
/**
 * The session middleware's routing decision: let the request through, or send
 * a signed-out visitor of a protected page to `/login?returnTo=<page>`.
 */
module RouteGuard {
  import opened Common
  import opened Text

  /** One `name=value` pair of a query string. */
  datatype Param = Param(name: string, value: string)

  /** The parts of the request URL the decision reads and writes. */
  datatype RequestUrl = RequestUrl(pathname: string, search: seq<Param>)

  /** What `supabase.auth.getUser()` gives: a user, no user, or an exception on the way. */
  datatype AuthLookup = SignedIn(userId: string) | SignedOut | LookupThrew

  /**
   * The environment of one request: the two configuration variables, whether
   * `new URL(url)` accepts the URL, and what the session lookup yields.
   */
  datatype Env = Env(supabaseUrl: Option<string>, anonKey: Option<string>, urlParses: bool, lookup: AuthLookup)

  datatype Decision = PassThrough | Redirect(target: RequestUrl)

  /** The decision, and whether the session lookup was performed at all. */
  datatype Outcome = Outcome(decision: Decision, authConsulted: bool)

  const CallbackPrefix := "/auth/callback"
  const LoginPath := "/login"
  const ReturnToParam := "returnTo"

  /** Only these two exact paths need a signed-in user. */
  predicate IsProtected(path: string) {
    path == "/collections/new" || path == "/artifacts/new"
  }

  predicate Configured(env: Env) {
    Truthy(env.supabaseUrl) && Truthy(env.anonKey)
  }

  /** The params other than `name`, in order. */
  function Without(ps: seq<Param>, name: string): (r: seq<Param>)
    ensures forall i :: 0 <= i < |r| ==> r[i].name != name
    ensures |r| <= |ps|
  {
    if |ps| == 0 then []
    else if ps[0].name == name then Without(ps[1..], name)
    else [ps[0]] + Without(ps[1..], name)
  }

  /** The values given for `name`, in order. */
  function ValuesOf(ps: seq<Param>, name: string): seq<string> {
    if |ps| == 0 then []
    else if ps[0].name == name then [ps[0].value] + ValuesOf(ps[1..], name)
    else ValuesOf(ps[1..], name)
  }

  /**
   * `searchParams.set(name, value)`: the first pair named `name` takes the
   * value and later ones are dropped; with no such pair, one is appended.
   */
  function SetParam(ps: seq<Param>, name: string, value: string): (r: seq<Param>)
    ensures ValuesOf(r, name) == [value]
    ensures Without(r, name) == Without(ps, name)
    ensures ValuesOf(ps, name) == [] ==> r == ps + [Param(name, value)]
  {
    if |ps| == 0 then [Param(name, value)]
    else if ps[0].name == name then
      var rest := Without(ps[1..], name);
      NoValuesWithout(ps[1..], name);
      WithoutIdempotent(ps[1..], name);
      [Param(name, value)] + rest
    else
      var r := [ps[0]] + SetParam(ps[1..], name, value);
      assert r[1..] == SetParam(ps[1..], name, value);
      r
  }

  lemma {:induction false} NoValuesWithout(ps: seq<Param>, name: string)
    ensures ValuesOf(Without(ps, name), name) == []
  {
    if |ps| > 0 {
      NoValuesWithout(ps[1..], name);
      if ps[0].name != name {
        assert ([ps[0]] + Without(ps[1..], name))[1..] == Without(ps[1..], name);
      }
    }
  }

  lemma {:induction false} WithoutIdempotent(ps: seq<Param>, name: string)
    ensures Without(Without(ps, name), name) == Without(ps, name)
  {
    if |ps| > 0 {
      WithoutIdempotent(ps[1..], name);
      if ps[0].name != name {
        assert ([ps[0]] + Without(ps[1..], name))[1..] == Without(ps[1..], name);
      }
    }
  }

  /** The login URL for a request: same query, path `/login`, `returnTo` set to the original path. */
  function LoginRedirect(request: RequestUrl): RequestUrl {
    RequestUrl(LoginPath, SetParam(request.search, ReturnToParam, request.pathname))
  }

  /** `updateSession`'s decision for one request. */
  function UpdateSession(env: Env, request: RequestUrl): (out: Outcome)
    ensures !Configured(env) ==> out == Outcome(PassThrough, false)
    ensures Configured(env) && !env.urlParses ==> out == Outcome(PassThrough, false)
    ensures out.authConsulted <==> Configured(env) && env.urlParses
    ensures StartsWith(request.pathname, CallbackPrefix) ==> out.decision == PassThrough
  {
    if !Configured(env) then Outcome(PassThrough, false)
    else if !env.urlParses then Outcome(PassThrough, false)
    else
      match env.lookup
      case LookupThrew => Outcome(PassThrough, true)
      case _ =>
        if StartsWith(request.pathname, CallbackPrefix) then Outcome(PassThrough, true)
        else if env.lookup.SignedOut? && IsProtected(request.pathname) then
          Outcome(Redirect(LoginRedirect(request)), true)
        else Outcome(PassThrough, true)
  }

  /** The protected paths are not callback paths, so the callback exemption never hides them. */
  lemma ProtectedIsNotCallback(path: string)
    requires IsProtected(path)
    ensures !StartsWith(path, CallbackPrefix)
  {
    assert path[1] != 'a' || path[2] != 'u';
  }

  /**
   * A request is redirected exactly when the configuration is usable, the
   * lookup found no user, and the path is protected; the target is `/login`
   * with `returnTo` naming the original path and the rest of the query kept.
   */
  lemma RedirectExactly(env: Env, request: RequestUrl)
    ensures var out := UpdateSession(env, request);
      && (out.decision.Redirect? <==>
            Configured(env) && env.urlParses && env.lookup == SignedOut && IsProtected(request.pathname))
      && (out.decision.Redirect? ==>
            && out.decision.target.pathname == LoginPath
            && ValuesOf(out.decision.target.search, ReturnToParam) == [request.pathname]
            && Without(out.decision.target.search, ReturnToParam) == Without(request.search, ReturnToParam))
  {
    if IsProtected(request.pathname) {
      ProtectedIsNotCallback(request.pathname);
    }
  }

  /** Signed-in visitors, unprotected paths and lookups that throw all pass through. */
  lemma PassThroughCases(env: Env, request: RequestUrl)
    requires env.lookup.SignedIn? || env.lookup.LookupThrew? || !IsProtected(request.pathname)
    ensures UpdateSession(env, request).decision == PassThrough
  {
  }
}

=== FILE: seqs.dfy ===
/** Sequence vocabulary shared by the list and media helpers. */
module Seqs {

  /** Position of the first occurrence of `x` in `xs`, or -1 (JavaScript `indexOf`/`findIndex`). */
  function IndexOf<T(==)>(xs: seq<T>, x: T): (i: int)
    ensures -1 <= i < |xs|
    ensures i == -1 <==> x !in xs
    ensures 0 <= i ==> xs[i] == x && forall k :: 0 <= k < i ==> xs[k] != x
  {
    if |xs| == 0 then -1
    else if xs[0] == x then 0
    else
      var j := IndexOf(xs[1..], x);
      if j < 0 then -1 else j + 1
  }

  /** No value occurs twice. */
  predicate NoDuplicates<T(==)>(xs: seq<T>) {
    forall i, j :: 0 <= i < j < |xs| ==> xs[i] != xs[j]
  }

  /** `sub` is `xs` with some elements dropped and the rest kept in order. */
  predicate IsSubsequence<T(==)>(sub: seq<T>, xs: seq<T>)
    decreases |xs|
  {
    if |sub| == 0 then true
    else if |xs| == 0 then false
    else if sub[0] == xs[0] then IsSubsequence(sub[1..], xs[1..])
    else IsSubsequence(sub, xs[1..])
  }

  /** Number of occurrences of `x` in `xs`. */
  function Count<T(==)>(xs: seq<T>, x: T): nat {
    multiset(xs)[x]
  }
}

=== FILE: summary_context.dfy ===
/** Building the prompt context from an artifact's transcript and image captions. */
module SummaryContext {
  import opened Common
  import opened Text
  import opened Decimal
  import opened Artifacts

  const MaxTranscriptLength := 10000
  const MaxImageCaptions := 3

  /** Header of the transcript part. */
  const TranscriptHeader := "## Transcript:\n"
  /** Header of the caption part; it starts with its own newline. */
  const CaptionHeader := "\n## Image Captions:\n"

  /** The artifact has a caption map with at least one entry. */
  predicate HasCaptions(captions: Option<seq<CaptionEntry>>) {
    captions.Some? && |captions.value| > 0
  }

  /** The route's content check: a non-empty transcript or a non-empty caption map. */
  predicate Eligible(a: Artifact) {
    Truthy(a.transcript) || HasCaptions(a.imageCaptions)
  }

  /** `transcript.slice(0, MAX_TRANSCRIPT_LENGTH)`. */
  function ShownTranscript(t: string): (shown: string)
    ensures |shown| == Min(|t|, MaxTranscriptLength)
    ensures StartsWith(t, shown)
  {
    if |t| <= MaxTranscriptLength then t else t[..MaxTranscriptLength]
  }

  function TranscriptSection(t: string): string {
    TranscriptHeader + ShownTranscript(t)
  }

  function TruncationNote(n: nat): string {
    TruncationNoteWith(n, MaxTranscriptLength)
  }

  /** The note's text for an original length `n` and a limit `limit`. */
  function TruncationNoteWith(n: nat, limit: nat): string {
    "\n(Transcript truncated from " + NatToString(n) + " to " + NatToString(limit) + " characters)"
  }

  /** One numbered caption line; `index` counts from 0, the printed number from 1. */
  function CaptionLine(index: nat, e: CaptionEntry): string {
    NatToString(index + 1) + ". " + e.caption
  }

  /** The lines for the first `MaxImageCaptions` entries, numbered in entry order. */
  function CaptionLines(entries: seq<CaptionEntry>): (lines: seq<string>)
    ensures |lines| == Min(|entries|, MaxImageCaptions)
    ensures forall i :: 0 <= i < |lines| ==> lines[i] == CaptionLine(i, entries[i])
  {
    var shown := if |entries| <= MaxImageCaptions then entries else entries[..MaxImageCaptions];
    seq(|shown|, i requires 0 <= i < |shown| => CaptionLine(i, shown[i]))
  }

  function CaptionSection(entries: seq<CaptionEntry>): string {
    CaptionHeader + Join("\n", CaptionLines(entries))
  }

  /** The `contextParts` array, in push order. */
  function ContextParts(transcript: Option<string>, captions: Option<seq<CaptionEntry>>): seq<string>
  {
    var transcriptParts :=
      if !Truthy(transcript) then []
      else if |transcript.value| > MaxTranscriptLength
      then [TranscriptSection(transcript.value), TruncationNote(|transcript.value|)]
      else [TranscriptSection(transcript.value)];
    var captionParts := if HasCaptions(captions) then [CaptionSection(captions.value)] else [];
    transcriptParts + captionParts
  }

  /** `contextParts.join("\n\n")`. */
  function BuildContext(transcript: Option<string>, captions: Option<seq<CaptionEntry>>): string
  {
    Join("\n\n", ContextParts(transcript, captions))
  }

  /**
   * Each source contributes its parts exactly when it is present, in the order
   * transcript, truncation note, captions; the note exactly when truncation happened.
   */
  lemma PartsLayout(transcript: Option<string>, captions: Option<seq<CaptionEntry>>)
    ensures var parts := ContextParts(transcript, captions);
      var truncated := Truthy(transcript) && |transcript.value| > MaxTranscriptLength;
      && |parts| == (if Truthy(transcript) then 1 else 0) + (if truncated then 1 else 0)
                  + (if HasCaptions(captions) then 1 else 0)
      && (Truthy(transcript) ==> parts[0] == TranscriptSection(transcript.value))
      && (truncated ==> parts[1] == TruncationNote(|transcript.value|))
      && (HasCaptions(captions) ==> parts[|parts| - 1] == CaptionSection(captions.value))
  {
  }

  /** The transcript section names the first min(n, 10000) characters and nothing more. */
  lemma TranscriptSectionShape(t: string)
    ensures StartsWith(TranscriptSection(t), TranscriptHeader)
    ensures TranscriptSection(t)[|TranscriptHeader|..] == t[..Min(|t|, MaxTranscriptLength)]
    ensures |t| <= MaxTranscriptLength ==> TranscriptSection(t)[|TranscriptHeader|..] == t
  {
  }

  /** The truncation note determines the original length it reports. */
  lemma TruncationNoteNamesLength(n: nat, m: nat)
    requires TruncationNote(n) == TruncationNote(m)
    ensures n == m
  {
    NoteNamesLength(n, m, MaxTranscriptLength);
  }

  lemma NoteNamesLength(n: nat, m: nat, limit: nat)
    requires TruncationNoteWith(n, limit) == TruncationNoteWith(m, limit)
    ensures n == m
  {
    var prefix := "\n(Transcript truncated from ";
    var suffix := " to " + NatToString(limit) + " characters)";
    assert TruncationNoteWith(n, limit) == prefix + NatToString(n) + suffix;
    assert TruncationNoteWith(m, limit) == prefix + NatToString(m) + suffix;
    CancelAround(prefix, NatToString(n), NatToString(m), suffix);
    NatToStringInjective(n, m);
  }

  /** Equal strings with the same prefix and suffix have the same middle. */
  lemma CancelAround(prefix: string, x: string, y: string, suffix: string)
    requires prefix + x + suffix == prefix + y + suffix
    ensures x == y
  {
    var s := prefix + x + suffix;
    assert x == s[|prefix|..|s| - |suffix|];
    assert y == (prefix + y + suffix)[|prefix|..|s| - |suffix|];
  }

  /** Keys play no part: two caption lists with the same captions render the same section. */
  lemma CaptionSectionIgnoresUrls(xs: seq<CaptionEntry>, ys: seq<CaptionEntry>)
    requires |xs| == |ys|
    requires forall i :: 0 <= i < |xs| ==> xs[i].caption == ys[i].caption
    ensures CaptionSection(xs) == CaptionSection(ys)
  {
    assert CaptionLines(xs) == CaptionLines(ys);
  }

  /** Captions past the first three play no part. */
  lemma CaptionSectionIgnoresTail(xs: seq<CaptionEntry>, more: seq<CaptionEntry>)
    requires |xs| >= MaxImageCaptions
    ensures CaptionSection(xs + more) == CaptionSection(xs)
  {
    assert CaptionLines(xs + more) == CaptionLines(xs);
  }

  /** When no shown caption has a newline, splitting the section's body on newlines gives the numbered lines back. */
  lemma CaptionLinesRecoverable(entries: seq<CaptionEntry>)
    requires |entries| > 0
    requires forall i :: 0 <= i < Min(|entries|, MaxImageCaptions) ==> '\n' !in entries[i].caption
    ensures var body := CaptionSection(entries)[|CaptionHeader|..];
      SplitOn('\n', body) == CaptionLines(entries)
  {
    var lines := CaptionLines(entries);
    forall i | 0 <= i < |lines|
      ensures '\n' !in lines[i]
    {
      var num := NatToString(i + 1);
      assert lines[i] == num + ". " + entries[i].caption;
    }
    SplitJoin('\n', lines);
    assert CaptionSection(entries)[|CaptionHeader|..] == Join("\n", lines);
  }

  /** With a transcript, the context opens with its section. */
  lemma ContextStartsWithTranscript(transcript: Option<string>, captions: Option<seq<CaptionEntry>>)
    requires Truthy(transcript)
    ensures StartsWith(BuildContext(transcript, captions), TranscriptSection(transcript.value))
  {
    JoinStartsWithFirst("\n\n", ContextParts(transcript, captions));
  }

  /** With captions, the context closes with their section. */
  lemma ContextEndsWithCaptions(transcript: Option<string>, captions: Option<seq<CaptionEntry>>)
    requires HasCaptions(captions)
    ensures EndsWith(BuildContext(transcript, captions), CaptionSection(captions.value))
  {
    JoinEndsWithLast("\n\n", ContextParts(transcript, captions));
  }

  /** The context spelled out for every combination of present sources. */
  lemma ContextCases(transcript: Option<string>, captions: Option<seq<CaptionEntry>>)
    ensures var ctx := BuildContext(transcript, captions);
      && (!Truthy(transcript) && !HasCaptions(captions) ==> ctx == "")
      && (!Truthy(transcript) && HasCaptions(captions) ==> ctx == CaptionSection(captions.value))
      && (Truthy(transcript) && |transcript.value| <= MaxTranscriptLength ==>
            ctx == TranscriptSection(transcript.value)
                   + (if HasCaptions(captions) then "\n\n" + CaptionSection(captions.value) else ""))
      && (Truthy(transcript) && |transcript.value| > MaxTranscriptLength ==>
            ctx == TranscriptSection(transcript.value) + "\n\n" + TruncationNote(|transcript.value|)
                   + (if HasCaptions(captions) then "\n\n" + CaptionSection(captions.value) else ""))
  {
    var parts := ContextParts(transcript, captions);
    if Truthy(transcript) {
      var ts := TranscriptSection(transcript.value);
      var note := TruncationNote(|transcript.value|);
      if HasCaptions(captions) {
        var cs := CaptionSection(captions.value);
        if |transcript.value| > MaxTranscriptLength {
          assert parts == [ts, note, cs];
          JoinTriple("\n\n", ts, note, cs);
        } else {
          assert parts == [ts, cs];
          JoinPair("\n\n", ts, cs);
        }
      } else if |transcript.value| > MaxTranscriptLength {
        assert parts == [ts, note];
        JoinPair("\n\n", ts, note);
      } else {
        assert parts == [ts];
      }
    } else if HasCaptions(captions) {
      assert parts == [CaptionSection(captions.value)];
    }
  }
}

=== FILE: summary_route.dfy ===
/**
 * The artifact summary endpoint: reads an artifact, checks it has content,
 * marks it `processing`, asks the generator for a summary, and records the
 * outcome on the row. The backend and the generator are oracles.
 */
module SummaryRoute {
  import opened Common
  import opened Artifacts
  import opened SummaryContext

  /** A value thrown inside the handler: an `Error` with a message, or anything else. */
  datatype Thrown = ErrorThrown(message: string) | NonErrorThrown

  /** The structured summary the generator returns (shape of `summarySchema`). */
  datatype Summary = Summary(
    descriptionMarkdown: string,
    highlights: Option<seq<string>>,
    people: Option<seq<string>>,
    places: Option<seq<string>>,
    yearGuess: Option<int>,
    tags: Option<seq<string>>)

  /** What one call of the structured generator does: return an object or throw. */
  datatype Generation = Generated(summary: Summary) | GenerationThrew(thrown: Thrown)

  /**
   * The request body: one whose first read or destructuring throws (not JSON,
   * or JSON `null`), or an object whose `artifactId` may be missing.
   */
  datatype Body = Unparseable(message: string) | Parsed(artifactId: Option<string>)

  /**
   * The answers of the outside world for one request: whether the artifact read
   * fails, how each write goes, and what the generator makes of a context.
   */
  datatype Oracle = Oracle(
    fetchFails: bool,
    processingWrite: WriteOutcome,
    generate: string -> Generation,
    saveWrite: WriteOutcome,
    errorWrite: WriteOutcome)

  datatype Response = Ok(summary: Summary) | Failed(status: int, message: string)

  /** The response, the table afterwards, and the paths whose cached views were invalidated. */
  datatype Run = Run(response: Response, store: Store, revalidated: seq<string>)

  /** How the body of the outer `try` ends: with a returned response or a thrown value. */
  datatype Step = Finished(run: Run) | Threw(thrown: Thrown, store: Store)

  const MissingIdMessage := "artifactId is required"
  const NotFoundMessage := "Artifact not found"
  const NoContentMessage := "No transcript or image captions available for summary"
  const InvalidDescriptionMessage := "AI did not generate a valid description"
  const SaveFailedPrefix := "Failed to save summary: "

  /** The message sent back for a thrown value. */
  function ResponseMessage(t: Thrown): string {
    match t
    case ErrorThrown(m) => m
    case NonErrorThrown => "Summary generation failed"
  }

  /** The message the failure handler stores in `analysis_error`. */
  function StoredMessage(t: Thrown): string {
    match t
    case ErrorThrown(m) => m
    case NonErrorThrown => "Unknown error occurred"
  }

  function MarkProcessing(a: Artifact): Artifact {
    a.(analysisStatus := Some(Processing), analysisError := None)
  }

  /** The row a successful save leaves: the description, `done`, no error. */
  function SavedRow(a: Artifact, description: string): Artifact {
    a.(aiDescription := Some(description), analysisStatus := Some(Done), analysisError := None)
  }

  function RecordSuccess(description: string): Artifact -> Artifact {
    (a: Artifact) => SavedRow(a, description)
  }

  function RecordError(message: string): Artifact -> Artifact {
    (a: Artifact) => a.(analysisStatus := Some(Error), analysisError := Some(message))
  }

  /** The context the generator sees for an artifact. */
  function ContextOf(a: Artifact): string {
    BuildContext(a.transcript, a.imageCaptions)
  }

  /** The generated description is long enough to keep. */
  predicate ValidDescription(s: Summary) {
    |s.descriptionMarkdown| >= MinDescriptionLength
  }

  /** The generation succeeds with a description long enough to keep. */
  predicate GeneratesValid(a: Artifact, oracle: Oracle) {
    oracle.generate(ContextOf(a)).Generated? && ValidDescription(oracle.generate(ContextOf(a)).summary)
  }

  /** The row is readable: the read does not fail and the id is in the table. */
  predicate Found(id: string, store: Store, oracle: Oracle) {
    !oracle.fetchFails && id in store
  }

  /** The table right after the `processing` write (whose outcome the route ignores). */
  function AfterProcessing(store: Store, id: string, oracle: Oracle): Store {
    UpdateRow(store, id, oracle.processingWrite, MarkProcessing)
  }

  /** The body of the outer `try`, once `artifactId` has been read from the body. */
  function Steps(artifactId: Option<string>, store: Store, oracle: Oracle): (step: Step)
    ensures step.Threw? ==>
      && Truthy(artifactId) && Found(artifactId.value, store, oracle) && Eligible(store[artifactId.value])
      && step.store == AfterProcessing(store, artifactId.value, oracle)
  {
    if !Truthy(artifactId) then
      Finished(Run(Failed(400, MissingIdMessage), store, []))
    else
      var id := artifactId.value;
      if !Found(id, store, oracle) then
        Finished(Run(Failed(404, NotFoundMessage), store, []))
      else if !Eligible(store[id]) then
        Finished(Run(Failed(400, NoContentMessage), store, []))
      else
        var marked := AfterProcessing(store, id, oracle);
        match oracle.generate(ContextOf(store[id]))
        case GenerationThrew(t) => Threw(t, marked)
        case Generated(summary) =>
          if !ValidDescription(summary) then
            Threw(ErrorThrown(InvalidDescriptionMessage), marked)
          else
            match oracle.saveWrite
            case Rejected(m) => Threw(ErrorThrown(SaveFailedPrefix + m), marked)
            case _ =>
              var saved := UpdateRow(marked, id, oracle.saveWrite, RecordSuccess(summary.descriptionMarkdown));
              Finished(Run(Ok(summary), saved, ["/artifacts/" + id, "/artifacts/" + id + "/edit"]))
  }

  /**
   * The handler as written: the `catch` block calls `request.json()` again, but
   * the body stream was already read, so that call throws, the inner `catch`
   * swallows it, and no `error` status is ever written.
   */
  function AnalyzeAsWritten(body: Body, store: Store, oracle: Oracle): (run: Run)
    ensures run.response == Analyze(body, store, oracle).response
    ensures FailsAfterContentCheck(body, store, oracle) ==>
      run.store == AfterProcessing(store, body.artifactId.value, oracle) && run.revalidated == []
    ensures !FailsAfterContentCheck(body, store, oracle) ==> run == Analyze(body, store, oracle)
  {
    match body
    case Unparseable(m) => Run(Failed(500, m), store, [])
    case Parsed(artifactId) =>
      match Steps(artifactId, store, oracle)
      case Finished(run) => run
      case Threw(t, s) => Run(Failed(500, ResponseMessage(t)), s, [])
  }

  /**
   * The handler as intended: `artifactId` is kept from the first read, so a
   * failure after the content check is recorded on the row (best effort: the
   * write may itself be rejected, which is ignored).
   */
  function Analyze(body: Body, store: Store, oracle: Oracle): (run: Run)
    ensures body.Unparseable? ==> run == Run(Failed(500, body.message), store, [])
    ensures body.Parsed? && !Truthy(body.artifactId) ==>
      run == Run(Failed(400, MissingIdMessage), store, [])
    ensures body.Parsed? && Truthy(body.artifactId) && !Found(body.artifactId.value, store, oracle) ==>
      run == Run(Failed(404, NotFoundMessage), store, [])
    ensures (body.Parsed? && Truthy(body.artifactId) && Found(body.artifactId.value, store, oracle)
             && !Eligible(store[body.artifactId.value])) ==>
      run == Run(Failed(400, NoContentMessage), store, [])
    ensures run.response.Ok? <==>
      && body.Parsed? && Truthy(body.artifactId)
      && Found(body.artifactId.value, store, oracle) && Eligible(store[body.artifactId.value])
      && GeneratesValid(store[body.artifactId.value], oracle) && !oracle.saveWrite.Rejected?
    ensures run.response.Failed? ==> run.response.status in {400, 404, 500}
    ensures run.revalidated != [] ==> run.response.Ok?
  {
    match body
    case Unparseable(m) => Run(Failed(500, m), store, [])
    case Parsed(artifactId) =>
      match Steps(artifactId, store, oracle)
      case Finished(run) => run
      case Threw(t, s) =>
        var id := artifactId.value;
        Run(Failed(500, ResponseMessage(t)), UpdateRow(s, id, oracle.errorWrite, RecordError(StoredMessage(t))), [])
  }

  /** The value thrown after the content check when a run fails. */
  function FailureOf(a: Artifact, oracle: Oracle): Thrown {
    match oracle.generate(ContextOf(a))
    case GenerationThrew(t) => t
    case Generated(s) =>
      if !ValidDescription(s) then ErrorThrown(InvalidDescriptionMessage)
      else match oracle.saveWrite
        case Rejected(m) => ErrorThrown(SaveFailedPrefix + m)
        case _ => NonErrorThrown
  }

  /** The run gets past the content check. */
  predicate PastContentCheck(id: string, store: Store, oracle: Oracle) {
    id != "" && Found(id, store, oracle) && Eligible(store[id])
  }

  /** The request names a readable artifact with content, and the run then fails. */
  predicate FailsAfterContentCheck(body: Body, store: Store, oracle: Oracle) {
    && body.Parsed? && Truthy(body.artifactId)
    && PastContentCheck(body.artifactId.value, store, oracle)
    && !Succeeds(store[body.artifactId.value], oracle)
  }

  /** The run goes on to save a valid description. */
  predicate Succeeds(a: Artifact, oracle: Oracle) {
    GeneratesValid(a, oracle) && !oracle.saveWrite.Rejected?
  }

  /** Past the content check, a failing run throws `FailureOf` with the table as the `processing` write left it. */
  lemma StepsOnFailure(id: string, store: Store, oracle: Oracle)
    requires PastContentCheck(id, store, oracle) && !Succeeds(store[id], oracle)
    ensures Steps(Some(id), store, oracle) == Threw(FailureOf(store[id], oracle), AfterProcessing(store, id, oracle))
  {
  }

  /** Past the content check, a succeeding run saves the description over the `processing` row. */
  lemma StepsOnSuccess(id: string, store: Store, oracle: Oracle)
    requires PastContentCheck(id, store, oracle) && Succeeds(store[id], oracle)
    ensures var summary := oracle.generate(ContextOf(store[id])).summary;
      Steps(Some(id), store, oracle) == Finished(Run(
        Ok(summary),
        UpdateRow(AfterProcessing(store, id, oracle), id, oracle.saveWrite, RecordSuccess(summary.descriptionMarkdown)),
        ["/artifacts/" + id, "/artifacts/" + id + "/edit"]))
  {
  }

  /** A successful run stores the description as `done` with no error, and touches nothing else. */
  lemma SuccessRecordsDescription(id: string, store: Store, oracle: Oracle)
    requires PastContentCheck(id, store, oracle) && Succeeds(store[id], oracle)
    ensures var run := Analyze(Parsed(Some(id)), store, oracle);
      var summary := oracle.generate(ContextOf(store[id])).summary;
      && run.response == Ok(summary)
      && OnlyRowChanged(store, run.store, id)
      && run.revalidated == ["/artifacts/" + id, "/artifacts/" + id + "/edit"]
      && (oracle.saveWrite.Applied? ==>
            && run.store[id].analysisStatus == Some(Done)
            && run.store[id].aiDescription == Some(summary.descriptionMarkdown)
            && |run.store[id].aiDescription.value| >= MinDescriptionLength
            && run.store[id].analysisError == None
            && SameContent(run.store[id], store[id]))
  {
    StepsOnSuccess(id, store, oracle);
  }

  /**
   * A save that reports no error but matches no row it may change: the route
   * still answers with the summary and invalidates both paths, while the table
   * keeps what the `processing` write left, so the row can stay `processing`.
   */
  lemma SilentSaveReportsSuccess(id: string, store: Store, oracle: Oracle)
    requires PastContentCheck(id, store, oracle) && GeneratesValid(store[id], oracle)
    requires oracle.saveWrite.AppliedToNoRow?
    ensures var run := Analyze(Parsed(Some(id)), store, oracle);
      && run.response == Ok(oracle.generate(ContextOf(store[id])).summary)
      && run.store == AfterProcessing(store, id, oracle)
      && run.revalidated == ["/artifacts/" + id, "/artifacts/" + id + "/edit"]
      && (oracle.processingWrite.Applied? ==> run.store[id].analysisStatus == Some(Processing))
  {
    StepsOnSuccess(id, store, oracle);
  }

  /** A generated description shorter than ten characters is refused with a fixed message. */
  lemma ShortDescriptionRefused(id: string, store: Store, oracle: Oracle)
    requires PastContentCheck(id, store, oracle)
    requires oracle.generate(ContextOf(store[id])).Generated?
    requires !ValidDescription(oracle.generate(ContextOf(store[id])).summary)
    ensures Analyze(Parsed(Some(id)), store, oracle).response == Failed(500, InvalidDescriptionMessage)
    ensures Analyze(Parsed(Some(id)), store, oracle).store[id].aiDescription == store[id].aiDescription
  {
    StepsOnFailure(id, store, oracle);
  }

  /**
   * Any failure after the content check answers 500 with the thrown message; if
   * the error write goes through, the row is `error` with that message, and
   * nothing but the status fields changes.
   */
  lemma FailureRecordsError(id: string, store: Store, oracle: Oracle)
    requires PastContentCheck(id, store, oracle) && !Succeeds(store[id], oracle)
    requires oracle.errorWrite.Applied?
    ensures var run := Analyze(Parsed(Some(id)), store, oracle);
      var t := FailureOf(store[id], oracle);
      && run.response == Failed(500, ResponseMessage(t))
      && run.store[id].analysisStatus == Some(Error)
      && run.store[id].analysisError == Some(StoredMessage(t))
      && run.store[id].aiDescription == store[id].aiDescription
      && SameContent(run.store[id], store[id])
      && OnlyRowChanged(store, run.store, id)
  {
    StepsOnFailure(id, store, oracle);
  }

  /** When the error write changes nothing (rejected, or matching no row), a failed run leaves whatever the `processing` write left. */
  lemma FailureWithRejectedErrorWrite(id: string, store: Store, oracle: Oracle)
    requires PastContentCheck(id, store, oracle) && !Succeeds(store[id], oracle)
    requires !oracle.errorWrite.Applied?
    ensures Analyze(Parsed(Some(id)), store, oracle).store == AfterProcessing(store, id, oracle)
    ensures oracle.processingWrite.Applied? ==>
      Analyze(Parsed(Some(id)), store, oracle).store[id].analysisStatus == Some(Processing)
    ensures !oracle.processingWrite.Applied? ==>
      Analyze(Parsed(Some(id)), store, oracle).store == store
  {
    StepsOnFailure(id, store, oracle);
  }

  /** A run changes at most the requested row and keeps the table well formed. */
  lemma AnalyzePreservesWellFormed(body: Body, store: Store, oracle: Oracle)
    requires WellFormed(store)
    ensures WellFormed(Analyze(body, store, oracle).store)
    ensures body.Parsed? && Truthy(body.artifactId) ==>
      OnlyRowChanged(store, Analyze(body, store, oracle).store, body.artifactId.value)
    ensures !(body.Parsed? && Truthy(body.artifactId)) ==> Analyze(body, store, oracle).store == store
  {
    if body.Parsed? && Truthy(body.artifactId) {
      var id := body.artifactId.value;
      if PastContentCheck(id, store, oracle) {
        var marked := AfterProcessing(store, id, oracle);
        UpdatePreservesWellFormed(store, id, oracle.processingWrite, MarkProcessing);
        if Succeeds(store[id], oracle) {
          StepsOnSuccess(id, store, oracle);
          var f := RecordSuccess(oracle.generate(ContextOf(store[id])).summary.descriptionMarkdown);
          UpdatePreservesWellFormed(marked, id, oracle.saveWrite, f);
        } else {
          StepsOnFailure(id, store, oracle);
          var f := RecordError(StoredMessage(FailureOf(store[id], oracle)));
          UpdatePreservesWellFormed(marked, id, oracle.errorWrite, f);
        }
      }
    }
  }

  /** The handler as written also keeps the table well formed. */
  lemma AsWrittenPreservesWellFormed(body: Body, store: Store, oracle: Oracle)
    requires WellFormed(store)
    ensures WellFormed(AnalyzeAsWritten(body, store, oracle).store)
  {
    if FailsAfterContentCheck(body, store, oracle) {
      UpdatePreservesWellFormed(store, body.artifactId.value, oracle.processingWrite, MarkProcessing);
    } else {
      AnalyzePreservesWellFormed(body, store, oracle);
    }
  }

  /** A row write that keeps the row's id and status consistency keeps the table well formed. */
  lemma UpdatePreservesWellFormed(store: Store, id: string, outcome: WriteOutcome, f: Artifact -> Artifact)
    requires WellFormed(store)
    requires id in store ==> f(store[id]).id == id && StatusConsistent(f(store[id]))
    ensures WellFormed(UpdateRow(store, id, outcome, f))
  {
  }

  /**
   * Re-running on an artifact does not depend on the description it already
   * has: two tables that differ only in that field give the same response and,
   * after a successful run, the same table.
   */
  lemma RerunIgnoresPriorDescription(id: string, store: Store, oracle: Oracle, prior: Option<string>)
    requires id in store
    ensures var other := store[id := store[id].(aiDescription := prior)];
      var run := Analyze(Parsed(Some(id)), store, oracle);
      var run' := Analyze(Parsed(Some(id)), other, oracle);
      && run.response == run'.response
      && (run.response.Ok? ==>
            run'.store == if oracle.saveWrite.Applied? then run.store
                          else run.store[id := run.store[id].(aiDescription := prior)])
  {
    var other := store[id := store[id].(aiDescription := prior)];
    assert ContextOf(other[id]) == ContextOf(store[id]);
    assert Eligible(other[id]) == Eligible(store[id]);
    if PastContentCheck(id, store, oracle) {
      if Succeeds(store[id], oracle) {
        RerunOnSuccess(id, store, prior, oracle);
      } else {
        StepsOnFailure(id, store, oracle);
        StepsOnFailure(id, other, oracle);
      }
    }
  }

  lemma RerunOnSuccess(id: string, store: Store, prior: Option<string>, oracle: Oracle)
    requires PastContentCheck(id, store, oracle) && Succeeds(store[id], oracle)
    ensures var other := store[id := store[id].(aiDescription := prior)];
      var run := Analyze(Parsed(Some(id)), store, oracle);
      var run' := Analyze(Parsed(Some(id)), other, oracle);
      && run'.response == run.response
      && run'.store == if oracle.saveWrite.Applied? then run.store
                       else run.store[id := run.store[id].(aiDescription := prior)]
  {
    var other := store[id := store[id].(aiDescription := prior)];
    assert other[id].transcript == store[id].transcript && other[id].imageCaptions == store[id].imageCaptions;
    AnalyzeOnSuccess(id, store, oracle);
    AnalyzeOnSuccess(id, other, oracle);
    if !oracle.saveWrite.Applied? && oracle.processingWrite.Applied? {
      assert MarkProcessing(other[id]) == MarkProcessing(store[id]).(aiDescription := prior);
    }
  }

  /** A successful run in one piece: the summary, the row saved over the original, two invalidated paths. */
  lemma AnalyzeOnSuccess(id: string, store: Store, oracle: Oracle)
    requires PastContentCheck(id, store, oracle) && Succeeds(store[id], oracle)
    ensures var summary := oracle.generate(ContextOf(store[id])).summary;
      Analyze(Parsed(Some(id)), store, oracle) == Run(
        Ok(summary),
        if oracle.saveWrite.Applied? then store[id := SavedRow(store[id], summary.descriptionMarkdown)]
        else AfterProcessing(store, id, oracle),
        ["/artifacts/" + id, "/artifacts/" + id + "/edit"])
  {
    StepsOnSuccess(id, store, oracle);
  }

  /** Until the failure handler, the two versions of the handler agree. */
  lemma VersionsAgreeUntilFailure(body: Body, store: Store, oracle: Oracle)
    ensures var written := AnalyzeAsWritten(body, store, oracle);
      var intended := Analyze(body, store, oracle);
      && written.response == intended.response
      && (written.response.Ok? || written.response.status != 500 ==> written == intended)
  {
  }

  /**
   * The handler as written never records an `error` status: a row that is
   * `error` afterwards was `error` before, with the same message.
   */
  lemma AsWrittenNeverRecordsError(body: Body, store: Store, oracle: Oracle)
    ensures var after := AnalyzeAsWritten(body, store, oracle).store;
      && after.Keys == store.Keys
      && forall k :: k in store && after[k].analysisStatus == Some(Error) ==>
           store[k].analysisStatus == Some(Error) && after[k].analysisError == store[k].analysisError
  {
    if body.Parsed? && Truthy(body.artifactId) && PastContentCheck(body.artifactId.value, store, oracle) {
      var id := body.artifactId.value;
      if Succeeds(store[id], oracle) {
        StepsOnSuccess(id, store, oracle);
      } else {
        StepsOnFailure(id, store, oracle);
      }
    }
  }

  /**
   * As written, a failure on an artifact that was marked `processing` leaves it
   * `processing` with no error message.
   */
  lemma AsWrittenFailureLeavesProcessing(id: string, store: Store, oracle: Oracle)
    requires PastContentCheck(id, store, oracle) && !Succeeds(store[id], oracle)
    requires oracle.processingWrite.Applied?
    ensures var run := AnalyzeAsWritten(Parsed(Some(id)), store, oracle);
      && run.response == Failed(500, ResponseMessage(FailureOf(store[id], oracle)))
      && run.store[id].analysisStatus == Some(Processing)
      && run.store[id].analysisError == None
  {
    StepsOnFailure(id, store, oracle);
  }

  /** A concrete run showing the difference: the generator times out on artifact "a3". */
  lemma GeneratorTimeoutExample()
    ensures var a := Artifact("a3", "u1", None, "Box", None, None, None, [], Some("A hand-carved box."),
                              None, None, None, None);
      var store := map["a3" := a];
      var oracle := Oracle(false, Applied, _ => GenerationThrew(ErrorThrown("timeout")), Applied, Applied);
      && WellFormed(store)
      && AnalyzeAsWritten(Parsed(Some("a3")), store, oracle).store["a3"].analysisStatus == Some(Processing)
      && Analyze(Parsed(Some("a3")), store, oracle).store["a3"].analysisStatus == Some(Error)
      && Analyze(Parsed(Some("a3")), store, oracle).store["a3"].analysisError == Some("timeout")
  {
    var a := Artifact("a3", "u1", None, "Box", None, None, None, [], Some("A hand-carved box."),
                      None, None, None, None);
    var store := map["a3" := a];
    var oracle := Oracle(false, Applied, _ => GenerationThrew(ErrorThrown("timeout")), Applied, Applied);
    assert Eligible(a);
    StepsOnFailure("a3", store, oracle);
  }
}

=== FILE: text.dfy ===
/** String helpers with the meaning of their JavaScript counterparts (strings are `seq<char>`). */
module Text {

  /** `s.startsWith(prefix)`. */
  predicate StartsWith(s: string, prefix: string) {
    |prefix| <= |s| && s[..|prefix|] == prefix
  }

  /** `s.endsWith(suffix)`. */
  predicate EndsWith(s: string, suffix: string) {
    |suffix| <= |s| && s[|s| - |suffix|..] == suffix
  }

  /** `parts.join(sep)`: the parts with `sep` between neighbours; the empty list joins to "". */
  function Join(sep: string, parts: seq<string>): string
  {
    if |parts| == 0 then ""
    else if |parts| == 1 then parts[0]
    else parts[0] + sep + Join(sep, parts[1..])
  }

  /** `s.split(c)` for a one-character separator: always at least one piece. */
  function SplitOn(c: char, s: string): (pieces: seq<string>)
    ensures |pieces| >= 1
  {
    if |s| == 0 then [""]
    else
      var rest := SplitOn(c, s[1..]);
      if s[0] == c then [""] + rest
      else [[s[0]] + rest[0]] + rest[1..]
  }

  lemma JoinPair(sep: string, a: string, b: string)
    ensures Join(sep, [a, b]) == a + sep + b
  {
    assert [a, b][1..] == [b];
  }

  lemma JoinTriple(sep: string, a: string, b: string, c: string)
    ensures Join(sep, [a, b, c]) == a + sep + b + sep + c
  {
    assert [a, b, c][1..] == [b, c];
    JoinPair(sep, b, c);
  }

  /** Joining a non-empty list starts with its first part. */
  lemma JoinStartsWithFirst(sep: string, parts: seq<string>)
    requires |parts| > 0
    ensures StartsWith(Join(sep, parts), parts[0])
  {
    var j := Join(sep, parts);
    if |parts| > 1 {
      assert j == parts[0] + (sep + Join(sep, parts[1..]));
    }
  }

  /** Joining a non-empty list ends with its last part. */
  lemma {:induction false} JoinEndsWithLast(sep: string, parts: seq<string>)
    requires |parts| > 0
    ensures EndsWith(Join(sep, parts), parts[|parts| - 1])
  {
    if |parts| > 1 {
      JoinEndsWithLast(sep, parts[1..]);
      var tail := Join(sep, parts[1..]);
      var last := parts[|parts| - 1];
      assert parts[1..][|parts[1..]| - 1] == last;
      var j := Join(sep, parts);
      assert j == (parts[0] + sep) + tail;
      assert j[|j| - |last|..] == tail[|tail| - |last|..];
    }
  }

  /** Splitting a piece free of `c` gives that piece back alone. */
  lemma {:induction false} SplitOnFree(c: char, a: string)
    requires c !in a
    ensures SplitOn(c, a) == [a]
  {
    if |a| > 0 {
      SplitOnFree(c, a[1..]);
      assert [a[0]] + a[1..] == a;
    }
  }

  /** A `c`-free piece followed by `c` splits off as one piece. */
  lemma {:induction false} SplitOnFirst(c: char, a: string, t: string)
    requires c !in a
    ensures SplitOn(c, a + [c] + t) == [a] + SplitOn(c, t)
  {
    var s := a + [c] + t;
    if |a| == 0 {
      assert s[0] == c && s[1..] == t;
    } else {
      assert s[0] == a[0];
      assert s[1..] == a[1..] + [c] + t;
      SplitOnFirst(c, a[1..], t);
      assert [a[0]] + a[1..] == a;
    }
  }

  /** Splitting undoes joining when no part contains the separator. */
  lemma {:induction false} SplitJoin(c: char, parts: seq<string>)
    requires |parts| > 0
    requires forall i :: 0 <= i < |parts| ==> c !in parts[i]
    ensures SplitOn(c, Join([c], parts)) == parts
  {
    if |parts| == 1 {
      SplitOnFree(c, parts[0]);
    } else {
      SplitJoin(c, parts[1..]);
      SplitOnFirst(c, parts[0], Join([c], parts[1..]));
      assert [parts[0]] + parts[1..] == parts;
    }
  }
}
